=== FILE: README.md ===
# Reading-time predictor: a verified model of its decision logic

This project models, in Dafny, the decision logic of a browser extension that
estimates how long a web article takes to read and personalises the estimate
with a linear model trained on the user's own reading sessions. The DOM,
timers and browser-storage plumbing are replaced by parameters and an
in-memory store. What remains follows the source's branches and constants,
with exact numbers in place of floating point; the other departures are listed
under "Left out".

- `Records` (records.dfy): page features, recorded sessions (`Sample`), model
  records with their two weight shapes (flat, or the regression library's
  column matrix), and the statistics with their default of 0 articles at 200
  words per minute.
- `Storage` (storage.dfy, src/storage.js): class `Store` with the three keys
  `trainingData`, `model` and `stats`, each possibly absent; readers apply the
  defaults, writers replace one key (or, on reset, all three).
- `Learner` (learner.dfy, src/model.js): the outlier filter, `train` (a pure
  `TrainResult` and the method `Train` that also saves the model),
  `predict` with its 30-second floor, the 200-words-per-minute fallback and the
  retraining trigger.
- `Words` (words.dfy, src/content.js `countWords`): trim, split at runs of
  white space, keep pieces whose JavaScript length (UTF-16 code units, so an
  emoji counts 2) is two or more. It is proved equal to an independent count of
  the positions where such a word begins.
- `Content` (content.dfy, src/content.js): the
  save gate, the totals and the average speed, the badge choice between
  trained prediction and fallback with the "learning" flag, the displayed
  minutes, and class `PageSession` for the tab's tracking state, with
  `CheckScrollCompletion`, `ShowPrediction` and `SaveTrackingData`.
- `Popup` (popup.dfy, popup/popup.js): time formatting, URL truncation,
  progress, the three-way status, the recent list, the average-speed field,
  `loadStats` as a method returning the dashboard, and `resetData`.
- `Rounding` and `Decimal`: JavaScript's `Math.round` (the floor of `x + 1/2`)
  and the decimal text of a number in a template literal, with a proof that the
  text reads back as the number.

Numbers are exact: `int`/`nat` for counts and `real` for predictions. Every
`Math.round` of a ratio of integers is proved equal to an integer division
(`Rounding.RoundRatio`), so the elapsed seconds, the average speed and, on the
fallback path, the displayed minutes each have an integer characterisation.
With a trained model the displayed minutes are only pinned to within half a
minute of the real-valued prediction.

## Model

| member | source | states |
|---|---|---|
| Learner.IsClean | src/model.js:17-20 | a session is kept by the outlier filter iff 10 < time < (words/200)*60*10, which is exactly 3 seconds per word |
| Learner.CleanSamples | src/model.js:17-20 | the filter's result is no longer than its input and holds exactly the input's clean sessions |
| Learner.CleanSamplesAppend | src/model.js:17-20 | filtering a concatenation is the concatenation of the filtered parts, so kept sessions keep their order |
| Learner.CleanSamplesIdempotent | src/model.js:17-20 | filtering already-filtered data removes nothing |
| Learner.Rows | src/model.js:28-33 | one feature row per clean session: words, images, code blocks, video as 1 or 0 |
| Learner.Targets | src/model.js:35 | one target per clean session: its time spent |
| Learner.TrainResult | src/model.js:10-56 | no model below 20 sessions, none below 20 clean sessions, none when the fit throws; otherwise a trained model with the fitted weights, trainedAt the current time and dataPoints the clean count, so 20 <= dataPoints <= dataset length |
| Learner.Train | src/model.js:10-57 | returns what TrainResult gives and saves the model exactly when one is returned; the stored model is otherwise untouched |
| Learner.TrainOnCleanData | src/model.js:17-25 | training on the clean part of a dataset gives the same model as training on the dataset |
| Learner.TwentiethSessionTrains | src/model.js:11-52 | 19 sessions give no model; adding a twentieth, all clean, gives a model with dataPoints 20 once the fit succeeds |
| Learner.Linear | src/model.js:71-85 | both stored shapes give the intercept plus each feature times its coefficient, reading the same five numbers (`Records.Read`) |
| Records.ReadColumn | src/model.js:41-43 | the five coefficients stored as a column read back unchanged |
| Learner.Predict | src/model.js:60-89 | no prediction without a model or weights; otherwise the larger of 30 and the linear value, so never below 30 |
| Learner.NestedAndFlatAgree | src/model.js:71-85 | the column-matrix weights and the flat list of their first entries predict the same value |
| Learner.ColumnPredictsLikeCoefficients | src/model.js:41-43 | a model stored from fitted coefficients predicts with those coefficients |
| Learner.PredictExample | src/model.js:80-88 | weights [30, 0.2, 1, 0.5, 10] with features [500, 2, 1, 0] predict 132.5 |
| Learner.FallbackPredict | src/model.js:92-95 | the fallback is 0.3 seconds per word (200 words per minute) |
| Learner.FallbackExample | src/model.js:92-95 | 1000 words give 300 seconds |
| Learner.ShouldRetrain | src/model.js:98-103 | never true below 20 sessions; without a model true iff 20 or more; with one true iff 20 or more and at least 10 beyond the model's dataPoints |
| Learner.RetrainStaysDue | src/model.js:98-103 | once retraining is due it stays due as the dataset grows |
| Learner.RetrainDueAfterFit | src/model.js:98-103 | right after a fit on a dataset, retraining is due again iff the filter dropped 10 or more of its sessions |
| Words.Utf16Length | src/content.js:61 | the JavaScript length is between the number of characters and twice it |
| Words.LongIffTwoUnits | src/content.js:61 | a piece has length 2 or more iff it has two characters or is one character outside the Basic Multilingual Plane |
| Words.TrimStart | src/content.js:59 | the result is a suffix of the text, everything dropped is white space, and it does not start with white space |
| Words.TrimEnd | src/content.js:59 | the result is a prefix of the text, everything dropped is white space, and it does not end with white space |
| Words.Trim | src/content.js:59 | no longer than the text, and neither end of the result is white space |
| Words.TrimSurrounds | src/content.js:59 | the result is the stretch of the text left after dropping its leading and its trailing run of white space |
| Words.TrimmedIsUnique | src/content.js:59 | at most one stretch of a text has no white space at either end and only white space around it, so Trim's contract with TrimSurrounds determines its result |
| Words.EmojiIsAWord | src/content.js:61 | the text "🎉 ab" counts 2 words: the lone emoji has length 2, so it is kept |
| Words.EmojiStarts | src/content.js:61 | in "🎉 ab" a long word begins at the emoji and at the "a" |
| Words.CountWords | src/content.js:55-64 | empty text counts 0; the count is at most the number of pieces the trimmed text splits into |
| Words.LongPieces | src/content.js:61 | no more pieces are kept than there were |
| Words.LongPiecesExactly | src/content.js:61 | the kept pieces are exactly those whose UTF-16 length is 2 or more |
| Words.Split | src/content.js:60 | at least one piece; no piece holds white space; the first piece is the text up to its first white space; there is one piece iff the text holds no white space |
| Words.CountWordsIsLongWords | src/content.js:55-64 | the count equals the number of positions in the text where a word begins that has a second non-space character or whose first character takes two code units |
| Words.SplitCountsLongWords | src/content.js:60-63 | splitting at white-space runs and keeping long pieces counts exactly the long words |
| Words.TrimKeepsLongWords | src/content.js:58-59 | trimming removes no word |
| Rounding.Round | popup/popup.js:8 | Math.round gives an integer within half of its argument, halves rounded up |
| Rounding.RoundRatio | src/content.js:141 | rounding a ratio of integers a/b is the integer division (2a + b) div 2b |
| Decimal.ValueOfText | popup/popup.js:7 | the decimal text of a number reads back as that number |
| Content.ElapsedSeconds | src/content.js:113 | the elapsed whole seconds are the millisecond difference over 1000, rounded to nearest |
| Content.ShouldRecord | src/content.js:116 | a session is recorded iff the page has 100 or more words and 10 or more seconds were spent |
| Content.TotalTime | src/content.js:139 | every session's time is at most the total, and the total is 0 iff every session took 0 seconds |
| Content.TotalWords | src/content.js:140 | every session's word count is at most the total, and the total is 0 iff every session had 0 words |
| Content.TotalsAppend | src/content.js:139-140 | appending a session adds its time and words to the totals |
| Content.Speed | src/content.js:141 | 200 without words; otherwise the integer nearest to 60 * words / seconds |
| Content.SpeedIsIntegerRatio | src/content.js:141 | the rounded speed is (120 * words + seconds) div (2 * seconds) |
| Content.AverageSpeed | src/content.js:139-141 | 200 when no words are recorded; otherwise the integer nearest to words per minute (60 * words / seconds) |
| Content.AverageSpeedIsIntegerRatio | src/content.js:141 | the average speed is (120 * words + seconds) div (2 * seconds) |
| Content.DisplayedMinutes | src/content.js:191 | at least 1 minute; within half a minute of the estimate once it is 30 seconds or more; 1 below 90 seconds |
| Content.FallbackMinutes | src/content.js:187-191 | with the fallback, a page of 100 or more words shows (words + 100) div 200 minutes |
| Content.PredictedSeconds | src/content.js:176-189 | without a trained model the fallback 0.3 seconds per word; with one, the model's prediction (at least 30), or 0 when it has no weights |
| Content.PredictionBadge | src/content.js:164-191 | no badge below 100 words; otherwise at least 1 minute, learning iff no trained model and fewer than 20 sessions, and with a trained model the minutes within half a minute of the prediction |
| Content.FallbackBadge | src/content.js:185-191 | without a trained model the badge is (words + 100) div 200 minutes, learning iff fewer than 20 sessions |
| Content.ScrollCompletion | src/content.js:99-106 | after one check the page is read iff it already was or the viewport is within 100 pixels of the end |
| Content.AfterScrolls | src/content.js:99-106 | a series of checks never clears the completion flag |
| Content.CompletionIsSticky | src/content.js:99-106 | after any series of scroll checks the page is read iff it already was or some check reached within 100 pixels of the end |
| Content.PageSession.constructor | src/content.js:7-15 | tracking starts with no features, the clock started and the page not read to the end |
| Content.PageSession.RecordedSample | src/content.js:121-130 | the recorded session carries the page's features, the rounded elapsed time (at least 10), the completion flag, the URL and the time |
| Content.PageSession.CheckScrollCompletion | src/content.js:99-106 | sets the completion flag when the viewport is within 100 pixels of the end and never clears it |
| Content.PageSession.ShowPrediction | src/content.js:160-202 | the session takes the page's features, and the badge is the one PredictionBadge chooses from the stored model and dataset |
| Content.PageSession.SaveTrackingData | src/content.js:112-157 | below 100 words or 10 seconds storage is untouched; otherwise one session is appended, stats become (new length, average speed of the new dataset), and the model is refitted and replaced exactly when retraining is due and the fit succeeds; the dataset only grows |
| Storage.Store.GetTrainingData | src/storage.js:23-26 | the stored dataset, or the empty sequence when the key is absent |
| Storage.Store.AddTrainingData | src/storage.js:29-34 | appends exactly one session at the end, keeps the earlier ones, returns the old length + 1, touches no other key |
| Storage.Store.GetModel | src/storage.js:37-40 | the stored model, or none |
| Storage.Store.SaveModel | src/storage.js:43-45 | replaces only the model key, wholesale |
| Storage.Store.GetStats | src/storage.js:48-51 | the stored statistics, or 0 articles at 200 words per minute |
| Storage.Store.UpdateStats | src/storage.js:54-56 | replaces only the stats key, wholesale |
| Storage.Store.ClearAll | src/storage.js:59-65 | an empty dataset, no model and the default statistics |
| Popup.FormatTime | popup/popup.js:6-10 | below 60 seconds the text is the seconds in decimal followed by "s"; otherwise a number m >= 1 of minutes within half a minute of the time, followed by " min"; the numbers carry no leading zero |
| Popup.Truncate | popup/popup.js:16-20 | "..." is appended only when the display is longer than the limit, after its first maxLength characters; the result is at most maxLength + 3 long |
| Popup.PrefixOf | popup/popup.js:21-23 | the fallback is a prefix of the URL of length min(length, maxLength) |
| Popup.TruncateUrl | popup/popup.js:13-24 | a parsed URL's display is truncated with an ellipsis; an unparsable URL gives its prefix of length min(length, maxLength) |
| Popup.RecentUrl | popup/popup.js:73 | a recent item's URL line is at most 43 characters; a parsed display of 40 or fewer is shown whole, a longer one as its first 40 characters and "..."; an unparsable URL gives its prefix of length min(length, 40) |
| Popup.Progress | popup/popup.js:45 | in [0, 100], 5 percent per session below 20, and 100 exactly when there are 20 or more |
| Popup.Status | popup/popup.js:51-63 | trained with the model's dataPoints iff a trained model is stored; else ready iff 20 or more sessions; else the number still needed, at least 1, which with the sessions makes 20 |
| Popup.StatusText | popup/popup.js:54-62 | trained: "Model trained with N articles"; ready: "Ready to train..." exactly; learning: "Learning... need N more articles"; N is the status's count in decimal, with no leading zero |
| Popup.ResetStatusText | popup/popup.js:60-62 | with no sessions the status line reads "Learning... need 20 more articles" |
| Popup.Reverse | popup/popup.js:70 | reversal keeps the length and mirrors the positions |
| Popup.Recent | popup/popup.js:70 | the last min(5, length) sessions, newest first |
| Popup.RecentList | popup/popup.js:66-82 | the empty state iff no session is stored; otherwise the last min(5, length) sessions, newest first |
| Popup.AverageSpeedText | popup/popup.js:38-42 | "-- wpm" for an empty dataset; otherwise the stored speed in decimal, with no leading zero, followed by " wpm" |
| Popup.LoadStats | popup/popup.js:27-83 | the dashboard's count, speed, progress, status, status text and recent list are those derived from the store with its defaults |
| Popup.ResetData | popup/popup.js:86-95 | unconfirmed, nothing changes; confirmed, the dataset is empty, the model gone, the stats default, and the reloaded dashboard shows 0 articles, "-- wpm", 0 progress, 20 still needed ("Learning... need 20 more articles") and the empty state |

## Left out

- The regression fit (`MultivariateLinearRegression`, src/model.js:2, 39) is floating-point numerics in a foreign library. It is a parameter `Learner.Fit` that yields five coefficients or nothing; nothing stands for the exception path at src/model.js:53-56. How the library lays out its weights is not part of this model. The coefficients are stored in the column shape that `predict` reads at src/model.js:73-77.
- Floating point: all arithmetic is exact. The JavaScript outlier bound `(wordCount / 200) * 60 * 10` and the progress `(length / 20) * 100` may differ from their exact values by rounding error; here they are exactly 3 * wordCount and 5 * length.
- Storage.Store.SaveModel: requires the model's weights, when present, to hold five readable entries (`Store.Valid`). The source stores anything, and `predict` would then compute NaN. The only caller, `train`, always stores five.
- Content.AverageSpeed: requires a positive total time whenever words were recorded. The source would divide by zero and store Infinity. Every caller meets this, because the session just recorded took at least 10 seconds.
- When a trained model has no weights, `predict` returns null and `Math.round(null / 60)` is 0, so the badge shows 1 minute. The model keeps this by treating the missing prediction as 0 seconds (`Content.PredictedSeconds`).
- Words.CountWords: takes a string. The `!text` test for null or undefined is not modelled separately, because the caller always passes a string. The empty string, the only falsy string, gives 0.
- DOM work is left out: `findArticleContainer`, `extractFeatures`, cloning and querying (src/content.js:31-96). The four counts are inputs (`Features`).
- Scroll geometry (`scrollY + innerHeight`, `scrollHeight`) is an input `ScrollReading`; only the comparison at src/content.js:103 is modelled.
- `debounce`, `setTimeout`, event listeners, `init` and `onReady` (src/content.js:18-28, 205-238) are timers and event wiring. `onReady` restarting the clock is covered by the session's constructor taking the start time.
- The `chrome.storage` callbacks and promises (src/storage.js:5-20) are left out. So is the last-write-wins race between tabs, which is a concurrency concern. Storage writes are taken to succeed, so the try/catch around saving only logs, and that logging is left out too.
- The clock is a parameter `nowMs`. One reading serves as the end of the session, the sample's timestamp and the model's `trainedAt`. The source reads the clock separately for each.
- `console` logging is left out.
- Words.Split: the contract does not say that the pieces, with the white-space runs between them, rebuild the text. What the pieces are is pinned through `Words.SplitCountsLongWords`, which counts them against the positions where words begin.
- Popup.Truncate, Popup.PrefixOf: lengths are counted in characters, while `display.length` and `substring` count UTF-16 code units. The two differ only for characters outside the Basic Multilingual Plane, and the serialised host name, path and `location.href` these functions receive are ASCII.
- URL parsing (`new URL`, popup/popup.js:15-16) is left out. Its outcome is the parameter `parsed` of `Popup.TruncateUrl`.
- The HTML of each recent item, the `classList` changes and the `confirm` dialog are left out. The user's answer is the parameter `confirmed` of `Popup.ResetData`.
- Popup.ResetData: the popup writes the three default values itself, and the model reaches the same state through `Store.ClearAll`.
- src/ui.js (badge DOM) and webpack.config.js (build) are not part of this model.

=== FILE: content.dfy ===
/**
 * The content script's rules: which reading sessions are recorded, the
 * statistics recomputed after each one, when the model is refitted, what the
 * badge shows, and the sticky "scrolled to the end" flag.
 */
module Content {
  import opened Wrappers
  import opened Records
  import opened Rounding
  import opened Storage
  import opened Learner

  /** Pages with fewer words get neither a badge nor a recorded session. */
  const MinWordsForPage: nat := 100
  /** Sessions shorter than this many seconds are not recorded. */
  const MinSessionSeconds: int := 10
  /** The page counts as read once the viewport's bottom is within this many pixels of its end. */
  const CompletionMarginPixels: int := 100

  /** `Math.round((now - start) / 1000)`: the whole seconds between two millisecond clock readings. */
  function ElapsedSeconds(startMs: int, nowMs: int): (t: int)
    ensures 2000 * t - 1000 <= 2 * (nowMs - startMs) < 2000 * t + 1000
  {
    RoundRatio(nowMs - startMs, 1000);
    Round((nowMs - startMs) as real / 1000.0)
  }

  /** The save gate: a session is recorded only with 100 words or more and 10 seconds or more. */
  function ShouldRecord(wordCount: nat, timeSpentSeconds: int): (record: bool)
    ensures record <==> wordCount >= 100 && timeSpentSeconds >= 10
  {
    !(wordCount < MinWordsForPage || timeSpentSeconds < MinSessionSeconds)
  }

  /** The total time over the sessions, summed from the first: zero exactly when every session took none. */
  function TotalTime(data: seq<Sample>): (t: nat)
    ensures forall i :: 0 <= i < |data| ==> data[i].timeSpentSeconds <= t
    ensures t == 0 <==> forall i :: 0 <= i < |data| ==> data[i].timeSpentSeconds == 0
  {
    if data == [] then 0 else TotalTime(data[..|data| - 1]) + data[|data| - 1].timeSpentSeconds
  }

  /** The total word count over the sessions, summed from the first: zero exactly when every session had none. */
  function TotalWords(data: seq<Sample>): (w: nat)
    ensures forall i :: 0 <= i < |data| ==> data[i].wordCount <= w
    ensures w == 0 <==> forall i :: 0 <= i < |data| ==> data[i].wordCount == 0
  {
    if data == [] then 0 else TotalWords(data[..|data| - 1]) + data[|data| - 1].wordCount
  }

  /** Appending a session adds its time and words to the totals. */
  lemma TotalsAppend(data: seq<Sample>, s: Sample)
    ensures TotalTime(data + [s]) == TotalTime(data) + s.timeSpentSeconds
    ensures TotalWords(data + [s]) == TotalWords(data) + s.wordCount
  {
    assert (data + [s])[..|data|] == data;
  }

  /** Words per second over minutes is sixty times words over seconds. */
  lemma PerMinute(w: real, t: real)
    requires t > 0.0
    ensures w / (t / 60.0) == (60.0 * w) / t
  {
  }

  /**
   * Words per minute from `w` words read in `t` seconds: the words over the
   * minutes, rounded; 200 when no words have been read.
   */
  function Speed(w: nat, t: nat): (speed: nat)
    requires w > 0 ==> t > 0
    ensures w == 0 ==> speed == 200
    ensures w > 0 ==> 2 * speed * t - t <= 120 * w < 2 * speed * t + t
  {
    if w > 0 then
      PerMinute(w as real, t as real);
      assert (60 * w) as real == 60.0 * w as real;
      RoundRatio(60 * w, t);
      Round(w as real / (t as real / 60.0))
    else 200
  }

  /** The rounding of the speed as integer arithmetic. */
  lemma SpeedIsIntegerRatio(w: nat, t: nat)
    requires w > 0 && t > 0
    ensures Speed(w, t) == (120 * w + t) / (2 * t)
  {
    PerMinute(w as real, t as real);
    assert (60 * w) as real == 60.0 * w as real;
    RoundRatio(60 * w, t);
  }

  /** The average reading speed over the recorded sessions, in words per minute. */
  function AverageSpeed(data: seq<Sample>): (speed: nat)
    requires TotalWords(data) > 0 ==> TotalTime(data) > 0
    ensures TotalWords(data) == 0 ==> speed == 200
    ensures TotalWords(data) > 0 ==>
      var w, t := TotalWords(data), TotalTime(data);
      2 * speed * t - t <= 120 * w < 2 * speed * t + t
  {
    Speed(TotalWords(data), TotalTime(data))
  }

  /** The rounding of the average speed as integer arithmetic. */
  lemma AverageSpeedIsIntegerRatio(data: seq<Sample>)
    requires TotalWords(data) > 0 && TotalTime(data) > 0
    ensures AverageSpeed(data) == (120 * TotalWords(data) + TotalTime(data)) / (2 * TotalTime(data))
  {
    SpeedIsIntegerRatio(TotalWords(data), TotalTime(data));
  }

  /** `Math.max(1, Math.round(seconds / 60))`: the minutes the badge shows. */
  function DisplayedMinutes(seconds: real): (m: int)
    ensures m >= 1
    ensures seconds >= 30.0 ==> (m as real - 0.5) * 60.0 <= seconds < (m as real + 0.5) * 60.0
    ensures seconds < 90.0 ==> m == 1
  {
    Max(1, Round(seconds / 60.0))
  }

  /** With no model, the badge shows the word count over 200, rounded half up, for pages long enough to have one. */
  lemma FallbackMinutes(wordCount: nat)
    requires wordCount >= MinWordsForPage
    ensures DisplayedMinutes(FallbackPredict(wordCount)) == (wordCount + 100) / 200
  {
    assert FallbackPredict(wordCount) / 60.0 == wordCount as real / 200.0;
    RoundRatio(wordCount, 200);
  }

  /** What the badge shows: minutes, and whether the extension is still learning. */
  datatype Badge = Badge(minutes: int, isLearning: bool)

  /**
   * The estimate in seconds: the model's prediction when a trained model is
   * stored (a missing prediction divides as 0), the fallback otherwise.
   */
  function PredictedSeconds(model: Option<ModelRecord>, f: Features): (seconds: real)
    requires Readable(model)
    ensures !IsTrained(model) ==> seconds == 3.0 * f.wordCount as real / 10.0
    ensures IsTrained(model) && model.value.weights.None? ==> seconds == 0.0
    ensures IsTrained(model) && model.value.weights.Some? ==>
      seconds >= MinPredictionSeconds && Predict(model, f) == Some(seconds)
  {
    if IsTrained(model) then Predict(model, f).GetOr(0.0) else FallbackPredict(f.wordCount)
  }

  /** The badge `showPrediction` displays for a page, given the stored model and dataset length. */
  function PredictionBadge(model: Option<ModelRecord>, dataLength: nat, f: Features): (b: Option<Badge>)
    requires Readable(model)
    ensures b.None? <==> f.wordCount < MinWordsForPage
    ensures b.Some? ==> b.value.minutes >= 1
    ensures b.Some? ==> (b.value.isLearning <==> !IsTrained(model) && dataLength < MinDataPoints)
    ensures b.Some? && IsTrained(model) && model.value.weights.Some? ==>
      var p := Predict(model, f).value;
      (b.value.minutes as real - 0.5) * 60.0 <= p < (b.value.minutes as real + 0.5) * 60.0
  {
    if f.wordCount < MinWordsForPage then None
    else
      var isLearning := if IsTrained(model) then false else dataLength < MinDataPoints;
      Some(Badge(DisplayedMinutes(PredictedSeconds(model, f)), isLearning))
  }

  /** Without a trained model the badge shows the word count over 200, rounded half up. */
  lemma FallbackBadge(model: Option<ModelRecord>, dataLength: nat, f: Features)
    requires Readable(model) && !IsTrained(model) && f.wordCount >= MinWordsForPage
    ensures PredictionBadge(model, dataLength, f) == Some(Badge((f.wordCount + 100) / 200, dataLength < MinDataPoints))
  {
    FallbackMinutes(f.wordCount);
  }

  /** One reading of the scroll geometry: the viewport's bottom and the page height. */
  datatype ScrollReading = ScrollReading(scrollPosition: int, pageHeight: int)

  predicate AtEnd(r: ScrollReading) {
    r.scrollPosition >= r.pageHeight - CompletionMarginPixels
  }

  /** The completion flag after one scroll check: set at the end of the page, never cleared. */
  function ScrollCompletion(completed: bool, r: ScrollReading): (c: bool)
    ensures c <==> completed || AtEnd(r)
  {
    if AtEnd(r) then true else completed
  }

  /** The completion flag after a series of scroll checks. */
  function AfterScrolls(completed: bool, readings: seq<ScrollReading>): (c: bool)
    ensures completed ==> c
    decreases |readings|
  {
    if readings == [] then completed else AfterScrolls(ScrollCompletion(completed, readings[0]), readings[1..])
  }

  /** After any series of checks the page is read iff it was already or some check reached the end. */
  lemma {:induction false} CompletionIsSticky(completed: bool, readings: seq<ScrollReading>)
    ensures AfterScrolls(completed, readings) <==> completed || exists i :: 0 <= i < |readings| && AtEnd(readings[i])
    decreases |readings|
  {
    if readings != [] {
      CompletionIsSticky(ScrollCompletion(completed, readings[0]), readings[1..]);
      if AtEnd(readings[0]) {
        assert exists i :: 0 <= i < |readings| && AtEnd(readings[i]);
      }
      if exists i :: 0 <= i < |readings| && AtEnd(readings[i]) {
        var i :| 0 <= i < |readings| && AtEnd(readings[i]);
        if i > 0 {
          assert AtEnd(readings[1..][i - 1]);
        }
      }
      if exists i :: 0 <= i < |readings[1..]| && AtEnd(readings[1..][i]) {
        var i :| 0 <= i < |readings[1..]| && AtEnd(readings[1..][i]);
        assert AtEnd(readings[i + 1]);
      }
    }
  }

  /** The page-tracking state of one tab. */
  class PageSession {
    var wordCount: nat
    var imageCount: nat
    var codeBlockCount: nat
    var hasVideo: bool
    var startTime: int
    var completedReading: bool
    var url: string

    /** The state at page load: no features yet, the clock started, not read to the end. */
    constructor (url: string, nowMs: int)
      ensures wordCount == 0 && imageCount == 0 && codeBlockCount == 0 && !hasVideo
      ensures startTime == nowMs && !completedReading && this.url == url
    {
      wordCount, imageCount, codeBlockCount, hasVideo := 0, 0, 0, false;
      startTime, completedReading, this.url := nowMs, false, url;
    }

    function PageFeatures(): Features
      reads this
    {
      Features(wordCount, imageCount, codeBlockCount, hasVideo)
    }

    /** The session `saveTrackingData` records when it leaves at `nowMs`. */
    function RecordedSample(nowMs: int): (s: Sample)
      reads this
      requires ShouldRecord(wordCount, ElapsedSeconds(startTime, nowMs))
      ensures SampleFeatures(s) == PageFeatures()
      ensures s.timeSpentSeconds as int == ElapsedSeconds(startTime, nowMs) >= MinSessionSeconds
      ensures s.completedReading == completedReading && s.url == url && s.timestamp == nowMs
    {
      Sample(wordCount, imageCount, codeBlockCount, hasVideo,
             ElapsedSeconds(startTime, nowMs), completedReading, url, nowMs)
    }

    /** `checkScrollCompletion`: mark the page read once the viewport reaches its end. */
    method CheckScrollCompletion(r: ScrollReading)
      modifies this`completedReading
      ensures completedReading == ScrollCompletion(old(completedReading), r)
      ensures old(completedReading) ==> completedReading
    {
      if r.scrollPosition >= r.pageHeight - CompletionMarginPixels {
        completedReading := true;
      }
    }

    /**
     * `showPrediction`: take the page's features into the session, then
     * choose the badge from the stored model and dataset.
     */
    method ShowPrediction(store: Store, f: Features) returns (badge: Option<Badge>)
      requires store.Valid()
      modifies this`wordCount, this`imageCount, this`codeBlockCount, this`hasVideo
      ensures PageFeatures() == f
      ensures badge == PredictionBadge(store.model, |store.Data()|, f)
    {
      wordCount, imageCount, codeBlockCount, hasVideo := f.wordCount, f.imageCount, f.codeBlockCount, f.hasVideo;
      if f.wordCount < MinWordsForPage {
        return None;
      }
      var model := store.GetModel();
      var trainingData := store.GetTrainingData();
      var predictedSeconds: real;
      var isLearning := true;
      if model.Some? && model.value.trained {
        var p := Predict(model, f);
        predictedSeconds := if p.Some? then p.value else 0.0;
        isLearning := false;
      } else {
        predictedSeconds := FallbackPredict(f.wordCount);
        isLearning := |trainingData| < MinDataPoints;
      }
      var minutes := Max(1, Round(predictedSeconds / 60.0));
      badge := Some(Badge(minutes, isLearning));
    }

    /**
     * `saveTrackingData`: record the session if it passes the gate, recompute
     * the statistics, and refit when retraining is due.
     */
    method SaveTrackingData(store: Store, nowMs: int, fit: Fit)
      requires store.Valid()
      modifies store
      ensures store.Valid()
      ensures !ShouldRecord(wordCount, ElapsedSeconds(startTime, nowMs)) ==>
        && store.trainingData == old(store.trainingData)
        && store.model == old(store.model)
        && store.stats == old(store.stats)
      ensures ShouldRecord(wordCount, ElapsedSeconds(startTime, nowMs)) ==>
        && store.Data() == old(store.Data()) + [RecordedSample(nowMs)]
        && TotalTime(store.Data()) > 0
        && store.stats == Some(Stats(|store.Data()|, AverageSpeed(store.Data())))
        && store.model == if ShouldRetrain(|store.Data()|, old(store.model))
                             && TrainResult(store.Data(), fit, nowMs).Some?
                          then TrainResult(store.Data(), fit, nowMs)
                          else old(store.model)
      ensures old(store.Data()) <= store.Data()
    {
      var timeSpentSeconds := ElapsedSeconds(startTime, nowMs);
      if wordCount < MinWordsForPage || timeSpentSeconds < MinSessionSeconds {
        return;
      }
      var dataPoint := Sample(wordCount, imageCount, codeBlockCount, hasVideo,
                              timeSpentSeconds, completedReading, url, nowMs);
      ghost var before := store.Data();
      var totalDataPoints := store.AddTrainingData(dataPoint);
      var trainingData := store.GetTrainingData();
      TotalsAppend(before, dataPoint);
      var averageSpeed := AverageSpeed(trainingData);
      store.UpdateStats(Stats(totalDataPoints, averageSpeed));
      var model := store.GetModel();
      if ShouldRetrain(totalDataPoints, model) {
        var _ := Train(store, trainingData, fit, nowMs);
      }
    }
  }
}

=== FILE: decimal.dfy ===
/**
 * The decimal text JavaScript produces when a non-negative integer is placed
 * in a template literal (`${n}`), and the value such text denotes.
 */
module Decimal {

  predicate IsDigit(c: char) {
    '0' <= c <= '9'
  }

  predicate AllDigits(s: string) {
    forall i :: 0 <= i < |s| ==> IsDigit(s[i])
  }

  function DigitChar(d: nat): (c: char)
    requires d < 10
    ensures IsDigit(c) && c as int - '0' as int == d
  {
    ('0' as int + d) as char
  }

  /** The canonical decimal text of `n`: digits only, no leading zero. */
  function Text(n: nat): (s: string)
    ensures |s| >= 1 && AllDigits(s)
    ensures |s| > 1 ==> s[0] != '0'
    decreases n
  {
    if n < 10 then [DigitChar(n)] else Text(n / 10) + [DigitChar(n % 10)]
  }

  /** The number a string of digits denotes. */
  function Value(s: string): nat
    requires AllDigits(s)
  {
    if s == [] then 0 else Value(s[..|s| - 1]) * 10 + (s[|s| - 1] as int - '0' as int)
  }

  /** Reading back the text of `n` gives `n`. */
  lemma {:induction false} ValueOfText(n: nat)
    ensures Value(Text(n)) == n
    decreases n
  {
    if n >= 10 {
      var s := Text(n);
      assert s[..|s| - 1] == Text(n / 10);
      ValueOfText(n / 10);
    }
  }
}

=== FILE: learner.dfy ===
/**
 * The online learner: when enough clean sessions have been recorded it fits
 * a linear model of reading time, which then serves predictions with a
 * 30-second floor; before that, a fixed 200-words-per-minute rate stands in.
 */
module Learner {
  import opened Wrappers
  import opened Records
  import opened Rounding
  import opened Storage

  /** The fewest clean sessions a fit is attempted on. */
  const MinDataPoints: nat := 20
  /** How many sessions beyond the last fit trigger a refit. */
  const RetrainInterval: nat := 10
  /** No prediction from a model is below this many seconds. */
  const MinPredictionSeconds: real := 30.0
  /** The reading rate the fallback estimate assumes, in words per minute. */
  const FallbackWordsPerMinute: real := 200.0

  /**
   * The regression routine: from the feature rows and target times to five
   * weights, or no result when the routine throws.
   */
  type Fit = (seq<seq<real>>, seq<real>) -> Option<Coefficients>

  /** The naive reading time for a page, in seconds. */
  function ExpectedSeconds(wordCount: nat): real {
    (wordCount as real / FallbackWordsPerMinute) * 60.0
  }

  /**
   * A session kept for fitting: more than 10 seconds and less than ten times
   * the naive time, which makes the outlier bound exactly three seconds per word.
   */
  function IsClean(s: Sample): (clean: bool)
    ensures clean <==> 10 < s.timeSpentSeconds < 3 * s.wordCount
  {
    assert ExpectedSeconds(s.wordCount) * 10.0 == (3 * s.wordCount) as real;
    (s.timeSpentSeconds as real) < ExpectedSeconds(s.wordCount) * 10.0 && s.timeSpentSeconds > 10
  }

  /** The clean sessions, in their original order. */
  function CleanSamples(data: seq<Sample>): (clean: seq<Sample>)
    ensures |clean| <= |data|
    ensures forall s :: s in clean <==> s in data && IsClean(s)
    decreases |data|
  {
    if data == [] then []
    else (if IsClean(data[0]) then [data[0]] else []) + CleanSamples(data[1..])
  }

  /** Filtering a concatenation filters each part: order is kept. */
  lemma {:induction false} CleanSamplesAppend(a: seq<Sample>, b: seq<Sample>)
    ensures CleanSamples(a + b) == CleanSamples(a) + CleanSamples(b)
    decreases |a|
  {
    if a == [] {
      assert a + b == b;
    } else {
      assert (a + b)[0] == a[0];
      assert (a + b)[1..] == a[1..] + b;
      CleanSamplesAppend(a[1..], b);
    }
  }

  /** Filtering clean sessions again removes nothing. */
  lemma {:induction false} CleanSamplesIdempotent(data: seq<Sample>)
    ensures CleanSamples(CleanSamples(data)) == CleanSamples(data)
    decreases |data|
  {
    if data != [] {
      var head := if IsClean(data[0]) then [data[0]] else [];
      assert CleanSamples(head) == head by {
        if head != [] { assert head[1..] == []; }
      }
      CleanSamplesAppend(head, CleanSamples(data[1..]));
      CleanSamplesIdempotent(data[1..]);
    }
  }

  /** The features a model reads, in its order: words, images, code blocks, video as 0 or 1. */
  function FeatureVector(f: Features): (x: seq<real>)
    ensures |x| == 4
  {
    [f.wordCount as real, f.imageCount as real, f.codeBlockCount as real, if f.hasVideo then 1.0 else 0.0]
  }

  function SampleFeatures(s: Sample): Features {
    Features(s.wordCount, s.imageCount, s.codeBlockCount, s.hasVideo)
  }

  /** The regression's inputs: one feature row per session. */
  function Rows(data: seq<Sample>): (xs: seq<seq<real>>)
    ensures |xs| == |data|
    ensures forall i :: 0 <= i < |data| ==> xs[i] == FeatureVector(SampleFeatures(data[i]))
  {
    seq(|data|, i requires 0 <= i < |data| => FeatureVector(SampleFeatures(data[i])))
  }

  /** The regression's targets: the time spent on each session. */
  function Targets(data: seq<Sample>): (ys: seq<real>)
    ensures |ys| == |data|
    ensures forall i :: 0 <= i < |data| ==> ys[i] == data[i].timeSpentSeconds as real
  {
    seq(|data|, i requires 0 <= i < |data| => data[i].timeSpentSeconds as real)
  }

  /** What `train` produces from a dataset, given the regression routine and the time. */
  function TrainResult(data: seq<Sample>, fit: Fit, now: int): (m: Option<ModelRecord>)
    ensures |data| < MinDataPoints ==> m.None?
    ensures |CleanSamples(data)| < MinDataPoints ==> m.None?
    ensures m.Some? <==> |CleanSamples(data)| >= MinDataPoints
                          && fit(Rows(CleanSamples(data)), Targets(CleanSamples(data))).Some?
    ensures m.Some? ==> && m.value.trained
                        && m.value.dataPoints == |CleanSamples(data)|
                        && MinDataPoints <= m.value.dataPoints <= |data|
                        && m.value.trainedAt == now
                        && m.value.weights == Some(Column(fit(Rows(CleanSamples(data)), Targets(CleanSamples(data))).value))
    ensures Readable(m)
  {
    if |data| < MinDataPoints then None
    else
      var clean := CleanSamples(data);
      if |clean| < MinDataPoints then None
      else
        match fit(Rows(clean), Targets(clean))
        case None => None
        case Some(c) => Some(ModelRecord(Some(Column(c)), true, |clean|, now))
  }

  /**
   * `train`: give up below 20 sessions or below 20 clean sessions, otherwise
   * fit the clean sessions, save the model and return it.
   */
  method Train(store: Store, data: seq<Sample>, fit: Fit, now: int) returns (m: Option<ModelRecord>)
    requires store.Valid()
    modifies store`model
    ensures store.Valid()
    ensures m == TrainResult(data, fit, now)
    ensures store.model == if m.Some? then m else old(store.model)
  {
    if |data| < MinDataPoints {
      return None;
    }
    var clean := CleanSamples(data);
    if |clean| < MinDataPoints {
      return None;
    }
    var weights := fit(Rows(clean), Targets(clean));
    if weights.None? {
      return None;
    }
    var model := ModelRecord(Some(Column(weights.value)), true, |clean|, now);
    store.SaveModel(model);
    m := Some(model);
  }

  /** Training on a dataset and on its clean part give the same model. */
  lemma TrainOnCleanData(data: seq<Sample>, fit: Fit, now: int)
    ensures TrainResult(CleanSamples(data), fit, now) == TrainResult(data, fit, now)
  {
    CleanSamplesIdempotent(data);
  }

  /** Nineteen sessions never train; twenty clean ones train on all twenty once the fit succeeds. */
  lemma TwentiethSessionTrains(data: seq<Sample>, s: Sample, fit: Fit, now: int)
    requires |data| == 19
    requires forall d :: d in data + [s] ==> IsClean(d)
    requires fit(Rows(data + [s]), Targets(data + [s])).Some?
    ensures TrainResult(data, fit, now).None?
    ensures TrainResult(data + [s], fit, now).Some?
    ensures TrainResult(data + [s], fit, now).value.dataPoints == 20
  {
    AllClean(data + [s]);
  }

  /** Filtering keeps a dataset of clean sessions whole. */
  lemma {:induction false} AllClean(data: seq<Sample>)
    requires forall d :: d in data ==> IsClean(d)
    ensures CleanSamples(data) == data
    decreases |data|
  {
    if data != [] {
      AllClean(data[1..]);
    }
  }

  /** The affine value of coefficients `c` at features `x`: intercept plus weighted features. */
  function Affine(c: Coefficients, x: seq<real>): real
    requires |x| == 4
  {
    c[0] + c[1] * x[0] + c[2] * x[1] + c[3] * x[2] + c[4] * x[3]
  }

  /**
   * The linear value `w0 + w1*x1 + w2*x2 + w3*x3 + w4*x4`, for either stored
   * shape of weights: it depends on the weights only through the five numbers read.
   */
  function Linear(w: Weights, x: seq<real>): (y: real)
    requires WellShaped(w) && |x| == 4
    ensures y == Affine(Read(w), x)
  {
    match w
    case Nested(rows) =>
      rows[0][0] + rows[1][0] * x[0] + rows[2][0] * x[1] + rows[3][0] * x[2] + rows[4][0] * x[3]
    case Flat(ws) =>
      ws[0] + ws[1] * x[0] + ws[2] * x[1] + ws[3] * x[2] + ws[4] * x[3]
  }

  /** `predict`: nothing without a model or weights, else the linear value but at least 30 seconds. */
  function Predict(model: Option<ModelRecord>, f: Features): (p: Option<real>)
    requires Readable(model)
    ensures p.None? <==> model.None? || model.value.weights.None?
    ensures p.Some? ==> p.value >= MinPredictionSeconds
    ensures p.Some? ==> && p.value >= Linear(model.value.weights.value, FeatureVector(f))
                        && (p.value == MinPredictionSeconds || p.value == Linear(model.value.weights.value, FeatureVector(f)))
  {
    if model.None? || model.value.weights.None? then None
    else Some(MaxReal(MinPredictionSeconds, Linear(model.value.weights.value, FeatureVector(f))))
  }

  /** The library's column form and the flat form of the same weights predict alike. */
  lemma NestedAndFlatAgree(rows: seq<seq<real>>, x: seq<real>)
    requires WellShaped(Nested(rows)) && |x| == 4
    ensures WellShaped(Flat([rows[0][0], rows[1][0], rows[2][0], rows[3][0], rows[4][0]]))
    ensures Linear(Nested(rows), x) == Linear(Flat([rows[0][0], rows[1][0], rows[2][0], rows[3][0], rows[4][0]]), x)
  {
  }

  /** A fitted model predicts from the fitted coefficients, whichever shape they are stored in. */
  lemma ColumnPredictsLikeCoefficients(c: Coefficients, f: Features)
    ensures Linear(Column(c), FeatureVector(f)) == Linear(Flat(c), FeatureVector(f))
    ensures Linear(Column(c), FeatureVector(f)) == Affine(c, FeatureVector(f))
  {
    ReadColumn(c);
  }

  /** The worked example: 30 + 0.2*500 + 1*2 + 0.5*1 + 10*0 = 132.5, above the floor. */
  lemma PredictExample()
    ensures Predict(Some(ModelRecord(Some(Flat([30.0, 0.2, 1.0, 0.5, 10.0])), true, 20, 0)),
                    Features(500, 2, 1, false)) == Some(132.5)
  {
  }

  /** `fallbackPredict`: the reading time at 200 words per minute, i.e. 0.3 seconds per word. */
  function FallbackPredict(wordCount: nat): (seconds: real)
    ensures seconds == 3.0 * wordCount as real / 10.0
  {
    (wordCount as real / FallbackWordsPerMinute) * 60.0
  }

  /** A thousand words take five minutes. */
  lemma FallbackExample()
    ensures FallbackPredict(1000) == 300.0
  {
  }

  /**
   * `shouldRetrain`: with no model, once there are 20 sessions; with one,
   * once there are 20 sessions and 10 more than the model was fitted on.
   */
  function ShouldRetrain(dataCount: nat, model: Option<ModelRecord>): (b: bool)
    ensures b ==> dataCount >= MinDataPoints
    ensures model.None? ==> (b <==> dataCount >= MinDataPoints)
    ensures model.Some? ==> (b <==> dataCount >= MinDataPoints && dataCount >= model.value.dataPoints + RetrainInterval)
  {
    if model.None? then dataCount >= MinDataPoints
    else dataCount >= MinDataPoints && dataCount - model.value.dataPoints >= RetrainInterval
  }

  /** Once retraining is due it stays due as the dataset grows. */
  lemma RetrainStaysDue(n: nat, n': nat, model: Option<ModelRecord>)
    requires ShouldRetrain(n, model) && n <= n'
    ensures ShouldRetrain(n', model)
  {
  }

  /**
   * Right after a fit on `data`, retraining is already due again exactly when
   * the outlier filter dropped ten or more sessions: the count the model keeps
   * is that of the clean sessions, not of the whole dataset.
   */
  lemma RetrainDueAfterFit(data: seq<Sample>, fit: Fit, now: int)
    requires TrainResult(data, fit, now).Some?
    ensures ShouldRetrain(|data|, TrainResult(data, fit, now))
        <==> |data| - |CleanSamples(data)| >= RetrainInterval
  {
  }
}

=== FILE: popup.dfy ===
/**
 * The popup dashboard: what it derives from the stored state (article count,
 * average speed, training progress, model status, the most recent sessions)
 * and the reset it offers.
 */
module Popup {
  import opened Wrappers
  import opened Records
  import opened Rounding
  import opened Storage
  import Decimal

  /** The popup's own copy of the training threshold. */
  const MinDataPoints: nat := 20
  /** `truncateUrl`'s default length. */
  const DefaultUrlLength: nat := 40
  /** How many recent sessions the list shows. */
  const RecentCount: nat := 5

  /** `formatTime`: seconds below a minute, otherwise minutes rounded half up. */
  function FormatTime(seconds: nat): (s: string)
    ensures seconds < 60 ==>
      && |s| >= 2 && s[|s| - 1..] == "s"
      && Decimal.AllDigits(s[..|s| - 1]) && Decimal.Value(s[..|s| - 1]) == seconds
      && (|s| > 2 ==> s[0] != '0')
    ensures seconds >= 60 ==>
      && |s| >= 5 && s[|s| - 4..] == " min"
      && Decimal.AllDigits(s[..|s| - 4]) && (|s| > 5 ==> s[0] != '0')
      && var m := Decimal.Value(s[..|s| - 4]);
         m >= 1 && 120 * m - 60 <= 2 * seconds < 120 * m + 60
  {
    if seconds < 60 then
      var t := Decimal.Text(seconds);
      Decimal.ValueOfText(seconds);
      assert (t + "s")[..|t|] == t;
      t + "s"
    else
      RoundRatio(seconds, 60);
      var mins: nat := Round(seconds as real / 60.0);
      var t := Decimal.Text(mins);
      Decimal.ValueOfText(mins);
      assert (t + " min")[..|t|] == t;
      t + " min"
  }

  /** The display string cut to `maxLength` characters, with "..." appended when it was longer. */
  function Truncate(display: string, maxLength: nat): (r: string)
    ensures |display| <= maxLength ==> r == display
    ensures |display| > maxLength ==> |r| == maxLength + 3 && r[..maxLength] == display[..maxLength] && r[maxLength..] == "..."
    ensures |r| <= maxLength + 3
  {
    if |display| > maxLength then display[..maxLength] + "..." else display
  }

  /** `url.substring(0, maxLength)`: the longest prefix of at most `maxLength` characters. */
  function PrefixOf(url: string, maxLength: nat): (r: string)
    ensures r <= url
    ensures |r| == if |url| < maxLength then |url| else maxLength
  {
    if |url| <= maxLength then url else url[..maxLength]
  }

  /**
   * `truncateUrl`: `parsed` is the host name and path when the URL parses;
   * otherwise the raw URL is cut without an ellipsis.
   */
  function TruncateUrl(parsed: Option<string>, url: string, maxLength: nat): (r: string)
    ensures parsed.Some? ==> r == Truncate(parsed.value, maxLength)
    ensures parsed.None? ==> r == PrefixOf(url, maxLength)
    ensures parsed.None? ==> r <= url && |r| == if |url| < maxLength then |url| else maxLength
  {
    match parsed
    case Some(display) => Truncate(display, maxLength)
    case None => PrefixOf(url, maxLength)
  }

  /**
   * The URL line of a recent session, cut at the default 40 characters: at
   * most 43 characters with the ellipsis, and a prefix of the raw URL when it
   * does not parse.
   */
  function RecentUrl(parsed: Option<string>, url: string): (r: string)
    ensures |r| <= DefaultUrlLength + 3
    ensures parsed.Some? && |parsed.value| <= DefaultUrlLength ==> r == parsed.value
    ensures parsed.Some? && |parsed.value| > DefaultUrlLength ==>
      r == parsed.value[..DefaultUrlLength] + "..."
    ensures parsed.None? ==> r <= url && |r| == if |url| < DefaultUrlLength then |url| else DefaultUrlLength
  {
    TruncateUrl(parsed, url, DefaultUrlLength)
  }

  /** The progress bar's width in percent: five percent per session, full at 20. */
  function Progress(length: nat): (p: real)
    ensures 0.0 <= p <= 100.0
    ensures p == 100.0 <==> length >= MinDataPoints
    ensures length < MinDataPoints ==> p == 5.0 * length as real
  {
    MinReal(100.0, (length as real / MinDataPoints as real) * 100.0)
  }

  /** The model status the popup reports. */
  datatype ModelStatus = Trained(articles: nat) | ReadyToTrain | Learning(remaining: nat)

  /** A trained model first; then enough sessions to train; else how many more are needed. */
  function Status(model: Option<ModelRecord>, length: nat): (st: ModelStatus)
    ensures st.Trained? <==> IsTrained(model)
    ensures st.Trained? ==> st.articles == model.value.dataPoints
    ensures st.ReadyToTrain? <==> !IsTrained(model) && length >= MinDataPoints
    ensures st.Learning? ==> st.remaining >= 1 && length + st.remaining == MinDataPoints
  {
    if IsTrained(model) then Trained(model.value.dataPoints)
    else if length >= MinDataPoints then ReadyToTrain
    else Learning(MinDataPoints - length)
  }

  /** The status line's text: each status has its own wording, carrying its count in decimal. */
  function StatusText(st: ModelStatus): (s: string)
    ensures st.Trained? ==>
      && |s| > 28 && s[..19] == "Model trained with " && s[|s| - 9..] == " articles"
      && Decimal.AllDigits(s[19..|s| - 9]) && Decimal.Value(s[19..|s| - 9]) == st.articles
      && (|s| > 29 ==> s[19] != '0')
    ensures st.ReadyToTrain? <==> s == "Ready to train..."
    ensures st.Learning? ==>
      && |s| > 31 && s[..17] == "Learning... need " && s[|s| - 14..] == " more articles"
      && Decimal.AllDigits(s[17..|s| - 14]) && Decimal.Value(s[17..|s| - 14]) == st.remaining
      && (|s| > 32 ==> s[17] != '0')
  {
    match st
    case Trained(n) =>
      var t := Decimal.Text(n);
      Decimal.ValueOfText(n);
      var s := "Model trained with " + t + " articles";
      assert s[19..|s| - 9] == t;
      s
    case ReadyToTrain => "Ready to train..."
    case Learning(k) =>
      var t := Decimal.Text(k);
      Decimal.ValueOfText(k);
      var s := "Learning... need " + t + " more articles";
      assert s[17..|s| - 14] == t;
      s
  }

  /** After a reset the status line asks for all twenty articles. */
  lemma ResetStatusText()
    ensures StatusText(Learning(MinDataPoints)) == "Learning... need 20 more articles"
  {
  }

  /** The sequence in reverse order. */
  function Reverse<T>(s: seq<T>): (r: seq<T>)
    ensures |r| == |s|
    ensures forall k :: 0 <= k < |s| ==> r[k] == s[|s| - 1 - k]
  {
    if s == [] then [] else Reverse(s[1..]) + [s[0]]
  }

  /** `trainingData.slice(-5).reverse()`: the last five sessions (or all, if fewer), newest first. */
  function Recent(data: seq<Sample>): (r: seq<Sample>)
    ensures |r| == if |data| < RecentCount then |data| else RecentCount
    ensures forall k :: 0 <= k < |r| ==> r[k] == data[|data| - 1 - k]
  {
    var start := if |data| < RecentCount then 0 else |data| - RecentCount;
    Reverse(data[start..])
  }

  /** The recent list: a placeholder for an empty dataset, else the recent sessions. */
  datatype RecentView = EmptyState | Items(items: seq<Sample>)

  function RecentList(data: seq<Sample>): (v: RecentView)
    ensures v.EmptyState? <==> data == []
    ensures v.Items? ==> 1 <= |v.items| <= RecentCount && v.items[0] == data[|data| - 1]
    ensures v.Items? ==>
      && |v.items| == (if |data| < RecentCount then |data| else RecentCount)
      && forall k :: 0 <= k < |v.items| ==> v.items[k] == data[|data| - 1 - k]
  {
    if data == [] then EmptyState else Items(Recent(data))
  }

  /** The average-speed field: the stored speed in words per minute once any session exists. */
  function AverageSpeedText(length: nat, stats: Stats): (s: string)
    ensures length == 0 ==> s == "-- wpm"
    ensures length > 0 ==>
      && |s| >= 5 && s[|s| - 4..] == " wpm"
      && Decimal.AllDigits(s[..|s| - 4]) && Decimal.Value(s[..|s| - 4]) == stats.averageSpeed
      && (|s| > 5 ==> s[0] != '0')
  {
    if length > 0 then
      var t := Decimal.Text(stats.averageSpeed);
      Decimal.ValueOfText(stats.averageSpeed);
      assert (t + " wpm")[..|t|] == t;
      t + " wpm"
    else "-- wpm"
  }

  /** Everything `loadStats` puts on the dashboard. */
  datatype Dashboard = Dashboard(
    totalArticles: nat,
    averageSpeed: string,
    progress: real,
    progressText: string,
    status: ModelStatus,
    statusText: string,
    recent: RecentView)

  /** `loadStats`: read the three keys (with their defaults) and derive the dashboard. */
  method LoadStats(store: Store) returns (d: Dashboard)
    ensures d.totalArticles == |store.Data()|
    ensures d.averageSpeed == AverageSpeedText(|store.Data()|, store.StatsOrDefault())
    ensures d.progress == Progress(|store.Data()|)
    ensures d.progressText == Decimal.Text(|store.Data()|) + "/" + Decimal.Text(MinDataPoints) + " articles"
    ensures d.status == Status(store.model, |store.Data()|)
    ensures d.statusText == StatusText(d.status)
    ensures d.recent == RecentList(store.Data())
  {
    var trainingData := store.GetTrainingData();
    var model := store.GetModel();
    var stats := store.GetStats();
    d := Dashboard(
      |trainingData|,
      AverageSpeedText(|trainingData|, stats),
      Progress(|trainingData|),
      Decimal.Text(|trainingData|) + "/" + Decimal.Text(MinDataPoints) + " articles",
      Status(model, |trainingData|),
      StatusText(Status(model, |trainingData|)),
      RecentList(trainingData));
  }

  /** `resetData`: when the user confirms, clear all three keys and reload the dashboard. */
  method ResetData(store: Store, confirmed: bool) returns (refreshed: Option<Dashboard>)
    requires store.Valid()
    modifies store
    ensures store.Valid()
    ensures !confirmed ==> refreshed.None? && unchanged(store)
    ensures confirmed ==>
      && store.trainingData == Some([]) && store.model.None? && store.stats == Some(DefaultStats)
      && refreshed.Some?
      && refreshed.value.totalArticles == 0
      && refreshed.value.averageSpeed == "-- wpm"
      && refreshed.value.progress == 0.0
      && refreshed.value.status == Learning(MinDataPoints)
      && refreshed.value.statusText == StatusText(Learning(MinDataPoints))
      && refreshed.value.recent == EmptyState
  {
    if !confirmed {
      return None;
    }
    store.ClearAll();
    var d := LoadStats(store);
    refreshed := Some(d);
  }
}

=== FILE: records.dfy ===
/**
 * The values the extension stores and passes around: page features,
 * recorded reading sessions, fitted models and the aggregate statistics.
 */
module Records {
  import opened Wrappers

  /** The four counts taken from a page. */
  datatype Features = Features(wordCount: nat, imageCount: nat, codeBlockCount: nat, hasVideo: bool)

  /** One recorded reading session. */
  datatype Sample = Sample(
    wordCount: nat,
    imageCount: nat,
    codeBlockCount: nat,
    hasVideo: bool,
    timeSpentSeconds: nat,
    completedReading: bool,
    url: string,
    timestamp: int)

  /** Five regression coefficients, in the order `predict` reads them. */
  type Coefficients = w: seq<real> | |w| == 5 witness [0.0, 0.0, 0.0, 0.0, 0.0]

  /**
   * Weights as stored in a model record: either a flat list, or the regression
   * library's column matrix whose rows each hold one weight in their first entry.
   */
  datatype Weights = Flat(flat: seq<real>) | Nested(rows: seq<seq<real>>)

  /** The weights hold five numbers where prediction reads them. */
  predicate WellShaped(w: Weights) {
    match w
    case Flat(ws) => |ws| >= 5
    case Nested(rows) => |rows| >= 5 && forall i :: 0 <= i < 5 ==> |rows[i]| >= 1
  }

  /** The column matrix `[[w0], [w1], ..., [w4]]` holding the given coefficients. */
  function Column(c: Coefficients): (w: Weights)
    ensures WellShaped(w)
    ensures w.Nested? && forall i :: 0 <= i < 5 ==> w.rows[i] == [c[i]]
  {
    Nested([[c[0]], [c[1]], [c[2]], [c[3]], [c[4]]])
  }

  /** The five numbers prediction reads from either shape of weights, in its order. */
  function Read(w: Weights): (c: Coefficients)
    requires WellShaped(w)
    ensures w.Flat? ==> c == w.flat[..5]
    ensures w.Nested? ==> forall i :: 0 <= i < 5 ==> c[i] == w.rows[i][0]
  {
    match w
    case Flat(ws) => ws[..5]
    case Nested(rows) => [rows[0][0], rows[1][0], rows[2][0], rows[3][0], rows[4][0]]
  }

  /** Storing coefficients as a column and reading them back gives them unchanged. */
  lemma ReadColumn(c: Coefficients)
    ensures Read(Column(c)) == c
  {
  }

  /** A fitted model; `weights` is absent when the fit produced none. */
  datatype ModelRecord = ModelRecord(weights: Option<Weights>, trained: bool, dataPoints: nat, trainedAt: int)

  /** The model is present and flagged as trained (`model && model.trained`). */
  predicate IsTrained(model: Option<ModelRecord>) {
    model.Some? && model.value.trained
  }

  /** The model, when present, has weights prediction can read (or none at all). */
  predicate Readable(model: Option<ModelRecord>) {
    model.Some? && model.value.weights.Some? ==> WellShaped(model.value.weights.value)
  }

  /** Aggregate statistics over the recorded sessions. */
  datatype Stats = Stats(totalArticles: nat, averageSpeed: nat)

  /** The statistics reported when none are stored: no articles, 200 words per minute. */
  const DefaultStats := Stats(0, 200)
}

=== FILE: rounding.dfy ===
/** JavaScript's `Math.round`, `Math.max` and `Math.min` over exact numbers. */
module Rounding {

  /** `Math.round`: the nearest integer, halves rounded up. */
  function Round(x: real): (r: int)
    ensures x - 0.5 < r as real <= x + 0.5
  {
    (x + 0.5).Floor
  }

  /** For a ratio of integers, rounding is integer (floor) division. */
  lemma RoundRatio(a: int, b: int)
    requires b > 0
    ensures Round(a as real / b as real) == (2 * a + b) / (2 * b)
  {
    var A, B := a as real, b as real;
    HalfShift(A, B);
    assert (2 * a + b) as real == 2.0 * A + B;
    assert (2 * b) as real == 2.0 * B;
    FloorOfRatio(2 * a + b, 2 * b);
  }

  lemma HalfShift(A: real, B: real)
    requires B > 0.0
    ensures A / B + 0.5 == (2.0 * A + B) / (2.0 * B)
  {
    var C := 2.0 * B;
    assert (2.0 * A + B) / C == (2.0 * A) / C + B / C;
    assert (2.0 * A) / C == A / B;
    assert B / C == 0.5;
  }

  /** The floor of a ratio of integers is their integer division. */
  lemma FloorOfRatio(n: int, d: int)
    requires d > 0
    ensures (n as real / d as real).Floor == n / d
  {
    var q, r := n / d, n % d;
    assert n == d * q + r && 0 <= r < d;
    var D := d as real;
    assert n as real == D * (q as real) + r as real by {
      assert (d * q) as real == D * (q as real);
    }
    assert n as real / D == q as real + r as real / D;
    assert 0.0 <= r as real / D < 1.0;
  }

  /** `Math.max` on whole numbers, as the displayed minutes use it. */
  function Max(a: int, b: int): (r: int)
    ensures r >= a && r >= b && (r == a || r == b)
  {
    if a >= b then a else b
  }

  /**
   * `Math.max` on the real-valued predictions. Dafny has no ordering type
   * class to make `Max` generic over, so the integer and real versions are
   * written separately.
   */
  function MaxReal(a: real, b: real): (r: real)
    ensures r >= a && r >= b && (r == a || r == b)
  {
    if a >= b then a else b
  }

  function MinReal(a: real, b: real): (r: real)
    ensures r <= a && r <= b && (r == a || r == b)
  {
    if a <= b then a else b
  }
}

=== FILE: storage.dfy ===
/**
 * The extension's persisted state: three keys, `trainingData`, `model` and
 * `stats`, any of which may be absent. Readers substitute a default for a
 * missing key; writers overwrite one key (or, on reset, all three) wholesale.
 */
module Storage {
  import opened Wrappers
  import opened Records

  class Store {
    /** The recorded sessions, in the order they were added; `None` when the key is absent. */
    var trainingData: Option<seq<Sample>>
    /** The current model; `None` when the key is absent or holds `null`. */
    var model: Option<ModelRecord>
    /** The aggregate statistics; `None` when the key is absent. */
    var stats: Option<Stats>

    /** A stored model can be read by prediction. */
    ghost predicate Valid()
      reads this
    {
      Readable(model)
    }

    /** The dataset as readers see it: the empty sequence when the key is absent. */
    function Data(): seq<Sample>
      reads this
    {
      trainingData.GetOr([])
    }

    /** The statistics as readers see them. */
    function StatsOrDefault(): Stats
      reads this
    {
      stats.GetOr(DefaultStats)
    }

    /** A store in which no key has been written yet. */
    constructor ()
      ensures Valid()
      ensures trainingData.None? && model.None? && stats.None?
      ensures Data() == [] && StatsOrDefault() == DefaultStats
    {
      trainingData, model, stats := None, None, None;
    }

    /** `getTrainingData`: the stored dataset, or the empty sequence when there is none. */
    method GetTrainingData() returns (data: seq<Sample>)
      ensures trainingData.None? ==> data == []
      ensures trainingData.Some? ==> data == trainingData.value
    {
      data := if trainingData.Some? then trainingData.value else [];
    }

    /** `addTrainingData`: append one session and report the new length. */
    method AddTrainingData(sample: Sample) returns (length: nat)
      modifies this`trainingData
      ensures Data() == old(Data()) + [sample]
      ensures length == |Data()| == |old(Data())| + 1
      ensures old(Data()) <= Data()
    {
      var data := GetTrainingData();
      data := data + [sample];
      trainingData := Some(data);
      length := |data|;
    }

    /** `getModel`: the stored model, or none. */
    method GetModel() returns (m: Option<ModelRecord>)
      ensures m == model
    {
      m := model;
    }

    /** `saveModel`: replace the model wholesale. */
    method SaveModel(m: ModelRecord)
      requires Valid() && Readable(Some(m))
      modifies this`model
      ensures Valid()
      ensures model == Some(m)
    {
      model := Some(m);
    }

    /** `getStats`: the stored statistics, or no articles at 200 words per minute. */
    method GetStats() returns (s: Stats)
      ensures stats.None? ==> s == DefaultStats
      ensures stats.Some? ==> s == stats.value
    {
      s := if stats.Some? then stats.value else DefaultStats;
    }

    /** `updateStats`: replace the statistics wholesale. */
    method UpdateStats(s: Stats)
      modifies this`stats
      ensures stats == Some(s)
    {
      stats := Some(s);
    }

    /** `clearAll`: an empty dataset, no model and the default statistics. */
    method ClearAll()
      modifies this
      ensures Valid()
      ensures trainingData == Some([]) && model.None? && stats == Some(DefaultStats)
    {
      trainingData, model, stats := Some([]), None, Some(DefaultStats);
    }
  }
}

=== FILE: words.dfy ===
/**
 * Word counting as the content script does it: trim the text, split it at
 * runs of white space, keep the pieces whose JavaScript length (in UTF-16
 * code units) is two or more, count them.
 */
module Words {

  /** The characters matched by JavaScript's `\s`, which are also those `trim` removes. */
  predicate IsSpace(c: char) {
    || c == ' ' || c == '\t' || c == '\n' || c == '\r'
    || c == '\U{000B}' || c == '\U{000C}' || c == '\U{00A0}' || c == '\U{1680}'
    || ('\U{2000}' <= c <= '\U{200A}')
    || c == '\U{2028}' || c == '\U{2029}' || c == '\U{202F}' || c == '\U{205F}'
    || c == '\U{3000}' || c == '\U{FEFF}'
  }

  /** A character outside the Basic Multilingual Plane, which JavaScript stores as two code units. */
  predicate IsAstral(c: char) {
    c >= '\U{10000}'
  }

  /** JavaScript's `length` of a string: its number of UTF-16 code units. */
  function Utf16Length(w: string): (n: nat)
    ensures |w| <= n <= 2 * |w|
  {
    if w == [] then 0 else (if IsAstral(w[0]) then 2 else 1) + Utf16Length(w[1..])
  }

  /** A piece is long when it has two characters, or one that takes two code units. */
  lemma LongIffTwoUnits(w: string)
    ensures Utf16Length(w) >= 2 <==> |w| >= 2 || (|w| == 1 && IsAstral(w[0]))
  {
    if |w| == 1 {
      assert w[1..] == [];
    }
  }

  /** `String.prototype.trimStart`: drop the leading white space. */
  function TrimStart(s: string): (t: string)
    ensures |t| <= |s| && t == s[|s| - |t|..]
    ensures forall k :: 0 <= k < |s| - |t| ==> IsSpace(s[k])
    ensures t == [] || !IsSpace(t[0])
  {
    if s != [] && IsSpace(s[0]) then TrimStart(s[1..]) else s
  }

  /** `String.prototype.trimEnd`: drop the trailing white space. */
  function TrimEnd(s: string): (t: string)
    ensures |t| <= |s| && t == s[..|t|]
    ensures forall k :: |t| <= k < |s| ==> IsSpace(s[k])
    ensures t == [] || !IsSpace(t[|t| - 1])
  {
    if s != [] && IsSpace(s[|s| - 1]) then TrimEnd(s[..|s| - 1]) else s
  }

  /** `String.prototype.trim`: neither end of the result is white space. */
  function Trim(s: string): (t: string)
    ensures |t| <= |s|
    ensures Tight(t)
  {
    TrimEnd(TrimStart(s))
  }

  /** Trimming keeps the stretch of the text between a leading and a trailing run of white space. */
  lemma TrimSurrounds(s: string)
    ensures Surrounds(s, |s| - |TrimStart(s)|, Trim(s))
  {
    PrefixOfSuffix(s, TrimStart(s), Trim(s));
  }

  /** `t` stands at position `a` of `s`, with only white space before and after it. */
  predicate Surrounds(s: string, a: nat, t: string) {
    && a + |t| <= |s| && t == s[a..a + |t|]
    && (forall k :: 0 <= k < a ==> IsSpace(s[k]))
    && (forall k :: a + |t| <= k < |s| ==> IsSpace(s[k]))
  }

  /** Neither end of `t` is white space. */
  predicate Tight(t: string) {
    t == [] || (!IsSpace(t[0]) && !IsSpace(t[|t| - 1]))
  }

  /**
   * Trim's contract pins its result: two tight stretches of `s` surrounded by
   * white space only are the same.
   */
  lemma TrimmedIsUnique(s: string, a: nat, t: string, b: nat, w: string)
    requires Surrounds(s, a, t) && Tight(t)
    requires Surrounds(s, b, w) && Tight(w)
    ensures t == w
  {
    if t != [] && w != [] {
      assert s[a] == t[0] && s[b] == w[0];
      assert a == b;
      assert s[a + |t| - 1] == t[|t| - 1] && s[b + |w| - 1] == w[|w| - 1];
      assert |t| == |w|;
    }
  }

  /**
   * A prefix `t` of a suffix `u` of `s` is a stretch of `s`; what `u` and `t`
   * drop is white space in `s`.
   */
  lemma PrefixOfSuffix(s: string, u: string, t: string)
    requires |u| <= |s| && u == s[|s| - |u|..]
    requires forall k :: 0 <= k < |s| - |u| ==> IsSpace(s[k])
    requires |t| <= |u| && t == u[..|t|]
    requires forall k :: |t| <= k < |u| ==> IsSpace(u[k])
    ensures Surrounds(s, |s| - |u|, t)
  {
    var a := |s| - |u|;
    forall k | a + |t| <= k < |s|
      ensures IsSpace(s[k])
    {
      assert s[k] == u[k - a];
    }
  }

  /** The first index at or after `i` holding white space, or `|s|` when there is none. */
  function NextSpace(s: string, i: nat): (j: nat)
    requires i <= |s|
    ensures i <= j <= |s|
    ensures j < |s| ==> IsSpace(s[j])
    ensures forall k :: i <= k < j ==> !IsSpace(s[k])
    decreases |s| - i
  {
    if i == |s| || IsSpace(s[i]) then i else NextSpace(s, i + 1)
  }

  /** The end of the run of white space that starts at `i`. */
  function SpaceRunEnd(s: string, i: nat): (j: nat)
    requires i <= |s|
    ensures i <= j <= |s|
    ensures j < |s| ==> !IsSpace(s[j])
    ensures forall k :: i <= k < j ==> IsSpace(s[k])
    decreases |s| - i
  {
    if i == |s| || !IsSpace(s[i]) then i else SpaceRunEnd(s, i + 1)
  }

  /**
   * `s.split(/\s+/)`: the pieces between maximal runs of white space. No piece
   * holds white space, the first runs up to the first white space, and there
   * is one piece exactly when the text holds no white space.
   */
  function Split(s: string): (pieces: seq<string>)
    ensures |pieces| >= 1
    ensures forall p :: p in pieces ==> forall k :: 0 <= k < |p| ==> !IsSpace(p[k])
    ensures pieces[0] == s[..NextSpace(s, 0)]
    ensures |pieces| == 1 <==> forall k :: 0 <= k < |s| ==> !IsSpace(s[k])
    decreases |s|
  {
    var i := NextSpace(s, 0);
    if i == |s| then [s]
    else
      var j := SpaceRunEnd(s, i);
      [s[..i]] + Split(s[j..])
  }

  /** The pieces of length two or more, in their order (`filter(word => word.length >= 2)`). */
  function LongPieces(pieces: seq<string>): (kept: seq<string>)
    ensures |kept| <= |pieces|
  {
    if pieces == [] then []
    else (if Utf16Length(pieces[0]) >= 2 then [pieces[0]] else []) + LongPieces(pieces[1..])
  }

  /** The kept pieces are exactly the pieces of length two or more. */
  lemma {:induction false} LongPiecesExactly(pieces: seq<string>)
    ensures forall w :: w in LongPieces(pieces) <==> w in pieces && Utf16Length(w) >= 2
    decreases |pieces|
  {
    if pieces != [] {
      LongPiecesExactly(pieces[1..]);
      assert pieces == [pieces[0]] + pieces[1..];
    }
  }

  /** `countWords`: zero for empty text, else the number of long pieces of the trimmed text. */
  function CountWords(text: string): (n: nat)
    ensures text == "" ==> n == 0
    ensures n <= |Split(Trim(text))|
  {
    if text == "" then 0 else |LongPieces(Split(Trim(text)))|
  }

  // An independent account of the same number: the positions where a word of
  // length two or more begins.

  /**
   * Position `i` begins a word (no white space before it) that has a second
   * character or whose first character alone takes two code units.
   */
  predicate LongWordStart(s: string, i: nat) {
    && i < |s|
    && !IsSpace(s[i])
    && (i == 0 || IsSpace(s[i - 1]))
    && ((i + 1 < |s| && !IsSpace(s[i + 1])) || IsAstral(s[i]))
  }

  /** The number of positions from `i` on that begin a long word. */
  function StartsFrom(s: string, i: nat): nat
    decreases |s| - i
  {
    if i >= |s| then 0 else (if LongWordStart(s, i) then 1 else 0) + StartsFrom(s, i + 1)
  }

  /** The number of words of `s` whose length is two or more code units. */
  function LongWords(s: string): nat {
    StartsFrom(s, 0)
  }

  /** `countWords` counts exactly the words of length two or more in the text. */
  lemma CountWordsIsLongWords(text: string)
    ensures CountWords(text) == LongWords(text)
  {
    if text != "" {
      SplitCountsLongWords(Trim(text));
      TrimKeepsLongWords(text);
    }
  }

  /** Stretches of positions that begin no word contribute nothing. */
  lemma {:induction false} SkipNoStarts(s: string, i: nat, j: nat)
    requires i <= j <= |s|
    requires forall k :: i <= k < j ==> !LongWordStart(s, k)
    ensures StartsFrom(s, i) == StartsFrom(s, j)
    decreases j - i
  {
    if i < j {
      SkipNoStarts(s, i + 1, j);
    }
  }

  /** After white space (or at the start), counting in `s` and in its suffix agree. */
  lemma {:induction false} SuffixStarts(s: string, k: nat, m: nat)
    requires k + m <= |s|
    requires k == 0 || IsSpace(s[k - 1])
    ensures StartsFrom(s, k + m) == StartsFrom(s[k..], m)
    decreases |s| - k - m
  {
    if k + m < |s| {
      assert LongWordStart(s, k + m) == LongWordStart(s[k..], m);
      SuffixStarts(s, k, m + 1);
    }
  }

  /** Dropping white space at the end changes no count. */
  lemma {:induction false} DropTrailingSpace(s: string, i: nat)
    requires s != [] && IsSpace(s[|s| - 1])
    ensures StartsFrom(s, i) == StartsFrom(s[..|s| - 1], i)
    decreases |s| - i
  {
    var t := s[..|s| - 1];
    if i < |s| {
      assert LongWordStart(s, i) == LongWordStart(t, i);
      DropTrailingSpace(s, i + 1);
    }
  }

  /** Trimming keeps every word of the text. */
  lemma {:induction false} TrimKeepsLongWords(s: string)
    ensures LongWords(Trim(s)) == LongWords(s)
  {
    TrimStartKeepsLongWords(s);
    TrimEndKeepsLongWords(TrimStart(s));
  }

  lemma {:induction false} TrimStartKeepsLongWords(s: string)
    ensures LongWords(TrimStart(s)) == LongWords(s)
    decreases |s|
  {
    if s != [] && IsSpace(s[0]) {
      assert !LongWordStart(s, 0);
      SuffixStarts(s, 1, 0);
      TrimStartKeepsLongWords(s[1..]);
    }
  }

  lemma {:induction false} TrimEndKeepsLongWords(s: string)
    ensures LongWords(TrimEnd(s)) == LongWords(s)
    decreases |s|
  {
    if s != [] && IsSpace(s[|s| - 1]) {
      DropTrailingSpace(s, 0);
      TrimEndKeepsLongWords(s[..|s| - 1]);
    }
  }

  /** The first piece of `s` (up to its first white space) holds one long word if it is long. */
  lemma FirstPieceStarts(s: string)
    ensures var i := NextSpace(s, 0);
      StartsFrom(s, 0) == (if Utf16Length(s[..i]) >= 2 then 1 else 0) + StartsFrom(s, i)
  {
    var i := NextSpace(s, 0);
    LongIffTwoUnits(s[..i]);
    if i > 0 {
      assert LongWordStart(s, 0) == (Utf16Length(s[..i]) >= 2);
      SkipNoStarts(s, 1, i);
    }
  }

  /** A run of white space begins no word. */
  lemma SpaceRunStarts(s: string, i: nat)
    requires i <= |s|
    ensures StartsFrom(s, i) == StartsFrom(s, SpaceRunEnd(s, i))
  {
    SkipNoStarts(s, i, SpaceRunEnd(s, i));
  }

  lemma LongPiecesCons(p: string, rest: seq<string>)
    ensures LongPieces([p] + rest) == (if Utf16Length(p) >= 2 then [p] else []) + LongPieces(rest)
  {
    assert ([p] + rest)[1..] == rest;
  }

  /** Splitting at white space and keeping the long pieces finds exactly the long words. */
  lemma {:induction false} SplitCountsLongWords(s: string)
    ensures |LongPieces(Split(s))| == LongWords(s)
    decreases |s|
  {
    var i := NextSpace(s, 0);
    FirstPieceStarts(s);
    var first := if Utf16Length(s[..i]) >= 2 then 1 else 0;
    assert LongWords(s) == first + StartsFrom(s, i);
    if i == |s| {
      assert Split(s) == [s];
      LongPiecesCons(s, []);
      assert |LongPieces(Split(s))| == first;
    } else {
      var j := SpaceRunEnd(s, i);
      var rest := s[j..];
      var pieces := Split(rest);
      assert Split(s) == [s[..i]] + pieces;
      LongPiecesCons(s[..i], pieces);
      assert |LongPieces(Split(s))| == first + |LongPieces(pieces)|;
      SpaceRunStarts(s, i);
      SuffixStarts(s, j, 0);
      assert StartsFrom(s, i) == LongWords(rest);
      SplitCountsLongWords(rest);
    }
  }

  /** A lone emoji is a word: its length is two code units. */
  lemma EmojiIsAWord()
    ensures CountWords("\U{1F389} ab") == 2
  {
    CountWordsIsLongWords("\U{1F389} ab");
    EmojiStarts();
  }

  /** In "🎉 ab" a long word begins at the emoji and at the "a". */
  lemma EmojiStarts()
    ensures LongWords("\U{1F389} ab") == 2
  {
    var s := "\U{1F389} ab";
    assert StartsFrom(s, 3) == 0;
    assert StartsFrom(s, 2) == 1;
    assert StartsFrom(s, 1) == 1;
  }
}

=== FILE: wrappers.dfy ===
/** Optional values: the model's stand-in for JavaScript's `null` and `undefined`. */
module Wrappers {

  datatype Option<+T> = None | Some(value: T) {

    /** The value held, or `default` when there is none (JavaScript's `x || default`). */
    function GetOr(default: T): (r: T)
      ensures Some? ==> r == value
      ensures None? ==> r == default
    {
      match this
      case Some(v) => v
      case None => default
    }
  }
}
